=== FILE: README.md ===
# bank-api ledger and credit core, in Dafny

This project models the ledger and credit-lifecycle core of the `bank-api`
Go service. Its parts are:

- **Account repository and service** (`accounts.dfy`, `account_service.dfy`).
  They insert and read accounts, deposit and withdraw, and transfer between
  two accounts inside one transaction.
- **Credit and payment-schedule repositories** (`credits.dfy`,
  `schedules.dfy`). They insert, look up and list rows, including the
  overdue-and-unpaid query and the schedule of one credit ordered by due date.
- **Credit service** (`credit_service.dfy`). It issues a credit together with
  its twelve monthly installments. It also runs the overdue batch, which adds
  a 10% penalty to a credit for each of its overdue unpaid installments.
- **Analytics service** (`analytics.dfy`). It computes the monthly deposit and
  withdrawal summary, the credit load (installments due in the window divided
  by deposits), and the balance forecast.
- **Card helpers** (`card_utils.dfy`). These cover the Luhn check digit, the
  16-digit card number, the CVV and the `MM/YY` expiration date.
- **Registration input rules** (`registration.dfy`).

How the model is built:

- Each database table is a map from id to row, plus the next value of the id
  sequence (`Table(rows, nextId)`).
- A repository call is a pure function from the table before the call to the
  table after it and the Go `error` it returns (`Write(after, outcome)`).
- Database failures the code reacts to become explicit parameters:
  - `TxFault` says which step of a transfer fails;
  - `IssueFault` says which INSERT of a credit issue fails;
  - `queryFails` and `updateFails` cover the overdue batch;
  - `Result` inputs cover the analytics sums.
- The clock, the random source and today's date are parameters as well.
- Money is an exact `real` and time is an `int` count of seconds.
- `Base.AddMonths` counts a month as thirty days.

The model follows the code as written, including the places where the code
does less than a ledger usually guarantees (a funds check, an atomic credit
issue, one penalty per installment):

- A transfer checks neither the sign of the amount nor the sender's balance,
  and it does not require two distinct accounts. A transfer to a missing
  account still commits the debit (`Accounts.TransferTxToMissingLosesAmount`).
- Issuing a credit is not atomic. If installment k fails to insert, the
  credit and installments 1..k-1 stay stored.
- The installments carry the caller's `credit.ID`, not the id the database
  gave the credit row, because `Create` never writes that id back
  (`CreditService.ApplyForCreditLinksCallerId`).
- The overdue batch never marks an installment paid. Running it twice at the
  same time charges every penalty twice
  (`CreditService.ProcessTwiceChargesTwice`).
- Deposits and withdrawals validate nothing. An update of an unknown account
  is a silent success.

## Model

| member | source | states |
|---|---|---|
| Accounts.Create | repositories/account_repository.go:28-35 | The new account is stored under the next id of the sequence with the caller's user id, balance and currency, stamped `now`. Every older account is unchanged and the table stays well-formed. |
| Accounts.CreateThenGetByID | repositories/account_repository.go:28-53 | Looking up the id `Create` used returns exactly the caller's fields. Every other lookup answers as it did before. |
| Accounts.GetByID | repositories/account_repository.go:37-53 | The lookup succeeds exactly when the id is stored, and then returns that row. Otherwise it returns `sql.ErrNoRows`. |
| Accounts.UpdateBalance | repositories/account_repository.go:55-61 | Adds delta to that one account and leaves every other row unchanged. For an unknown id it succeeds and leaves the table unchanged. |
| Accounts.UpdateBalancePreservesValid | repositories/account_repository.go:55-61 | A balance update keeps the table well-formed. |
| Accounts.TotalAfterAdjust | repositories/account_repository.go:55-61 | Moving one balance by delta moves the sum of all balances by exactly delta. |
| Accounts.TransferTx | repositories/account_repository.go:63-88 | A begin, debit, credit or commit failure returns its own error and, through the rollback, leaves the table unchanged. Otherwise the sender's balance falls by `amount` and the receiver's rises by it, with every other field of both rows kept, and no other account changes. A transfer to oneself changes nothing. |
| Accounts.TransferTxPreservesValid | repositories/account_repository.go:63-88 | A transfer, failed or committed, keeps the table well-formed. |
| Accounts.TransferTxConserves | repositories/account_repository.go:63-88 | A committed transfer between two existing accounts keeps the ledger total. |
| Accounts.TransferTxToMissingLosesAmount | repositories/account_repository.go:77-87 | When the receiver does not exist, the transfer still succeeds and the ledger total drops by the amount. |
| Accounts.TransferTxOverdraws | repositories/account_repository.go:70-75 | Nothing checks funds: an account holding 10 can send 25 and is left at -15. |
| AccountService.CreateAccount | services/account_service.go:29-31 | Inserts the account as given, with no validation. The stored row carries the caller's user id, balance and currency. |
| AccountService.Deposit | services/account_service.go:33-35 | The account's balance rises by the amount and its other fields stay. Other accounts are unchanged. An unknown id is a silent no-op. |
| AccountService.Withdraw | services/account_service.go:37-39 | The account's balance falls by the amount and its other fields stay. Other accounts are unchanged. An unknown id is a silent no-op. |
| AccountService.Transfer | services/account_service.go:41-44 | Passes the repository transaction's error on unchanged: each failing step returns its own error and changes nothing. On success exactly the two balances move, every other field and account is kept, and a transfer to oneself changes nothing. |
| AccountService.TransferConserves | services/account_service.go:41-44 | Every transfer between existing accounts, failed or not, keeps the ledger total. |
| AccountService.DepositThenWithdrawRestores | services/account_service.go:33-39 | A withdrawal undoes a deposit of the same amount exactly. |
| AccountService.WithdrawOverdraws | services/account_service.go:37-39 | Withdrawing more than the balance succeeds and leaves the balance negative. |
| AccountService.DepositWithdrawTotals | services/account_service.go:33-39 | A deposit or withdrawal moves the ledger total by exactly its amount when the account exists, and by nothing otherwise. |
| Base.AddMonths | services/credit_service.go:49 | `AddDate(0, n, 0)`: no months leave the instant unchanged, and a positive number of months moves it strictly later. |
| CardUtils.DoublingPermutesDigits | utils/card_utils.go:37-42 | The doubling step (double, less 9 above 9) maps the digits 0..9 one-to-one onto 0..9. |
| Credits.Create | repositories/credit_repository.go:27-34 | The credit is stored under the next id with the caller's user, account, amount and rate, stamped `now`. Older credits are unchanged. |
| Credits.CreateThenGetByID | repositories/credit_repository.go:27-46 | Looking up the new id returns exactly the caller's fields. Other lookups answer as before. |
| Credits.GetByID | repositories/credit_repository.go:36-46 | The lookup succeeds exactly when the id is stored, and then returns that row. Otherwise it returns `sql.ErrNoRows`. |
| Credits.GetByUserID | repositories/credit_repository.go:48-67 | Lists exactly the stored credits of that user, each once, in ascending id order. |
| Credits.UpdateAmount | repositories/credit_repository.go:69-80 | Replaces the amount of that one credit. When no row matches it returns "credit N not found" and leaves the table unchanged. |
| Credits.UpdateAmountPreservesValid | repositories/credit_repository.go:69-80 | An amount update keeps the table well-formed. |
| Credits.UpdateAmountReplaces | repositories/credit_repository.go:69-73 | Two updates in a row leave only the second amount: the update sets the amount, it does not add to it. |
| Schedules.Create | repositories/payment_schedule_repository.go:28-35 | The installment is stored under the next id with the caller's credit id, due date, amount and paid flag, stamped `now`. Older rows are unchanged. |
| Schedules.CreateThenGetByID | repositories/payment_schedule_repository.go:28-49 | Looking up the new id returns exactly the caller's fields. Other lookups answer as before. |
| Schedules.GetByID | repositories/payment_schedule_repository.go:37-49 | The lookup succeeds exactly when the id is stored, and then returns that row. Otherwise it returns `sql.ErrNoRows`. |
| Schedules.GetOverdueUnpaid | repositories/payment_schedule_repository.go:51-71 | Lists exactly the stored unpaid rows due strictly before the cutoff, each once. |
| Schedules.OverdueExcludesBoundaryAndPaid | repositories/payment_schedule_repository.go:53-56 | A row due exactly at the cutoff is not overdue, and neither is a paid row. |
| Schedules.SortByDue | repositories/payment_schedule_repository.go:73-78 | `ORDER BY due_date` returns a permutation of its input with due dates that never decrease. |
| Schedules.GetByCreditID | repositories/payment_schedule_repository.go:73-93 | Lists exactly the stored rows of that credit, ordered by due date, as a permutation of the matching rows. |
| Schedules.Update | repositories/payment_schedule_repository.go:95-101 | Writes only the paid flag of the row with the entry's id. An unknown id is a silent success that changes nothing. |
| Schedules.UpdatePreservesValid | repositories/payment_schedule_repository.go:95-101 | The update keeps the table well-formed. |
| Schedules.UpdateDecidesOverdue | repositories/payment_schedule_repository.go:95-101 | After the update, a stored row is overdue at a cutoff exactly when it was marked unpaid and falls due before that cutoff. |
| CreditService.Installments | services/credit_service.go:46-57 | The loop from installment i stores one row per installment under consecutive ids, each due i, i+1, … months after issue. It stops with the storage error at the failing installment and keeps the rows already stored. |
| CreditService.FileSchedule | services/credit_service.go:46-57 | Under a given fault, the whole loop stores exactly `FiledCount` installments. The outcome fails exactly when fewer than twelve were stored. |
| CreditService.ApplyForCredit | services/credit_service.go:38-59 | If the credit's INSERT fails, nothing changes and the storage error is returned. Otherwise the credit is stored under the next id with the caller's fields stamped `now`, the credit sequence moves by one, older credits are kept, the number of stored installments is `FiledCount`, and the call fails exactly when that number is below twelve. |
| CreditService.ApplyForCreditKeepsSchedule | services/credit_service.go:46-57 | Issuing only adds schedule rows, under the next ids, and leaves every older row as it was. |
| CreditService.ApplyForCreditInstallment | services/credit_service.go:46-57 | The k-th new row holds the caller's credit id. It is due k months after issue, is for the annuity payment of the credit's amount and rate, and is unpaid. |
| CreditService.ApplyForCreditFilesTwelve | services/credit_service.go:43-58 | An issue without a fault succeeds and adds exactly twelve installments. |
| CreditService.ApplyForCreditDueDatesIncrease | services/credit_service.go:46-49 | A later installment falls due strictly later. |
| CreditService.ApplyForCreditLinksCallerId | services/credit_service.go:47-48 | The installments refer to the id in the caller's record. Unless that happens to equal the new row's id, none of them refers to the credit just stored. |
| CreditService.ApplyPenalties | services/credit_service.go:72-91 | Each credit ends with its amount plus 10% of each overdue entry that refers to it, except entries whose update fails. Entries of a missing credit are skipped. No credit is added or removed. |
| CreditService.ProcessOverduePayments | services/credit_service.go:65-94 | A failing overdue query returns its error and changes nothing. Otherwise the call succeeds, no schedule row changes (none is marked paid), and each credit grows by the penalties of its overdue unpaid entries. |
| CreditService.ProcessTwiceChargesTwice | services/credit_service.go:65-94 | A second run at the same time charges every penalty again: each credit ends with two penalties per overdue entry. |
| CreditService.ProcessAccumulatesAndSkipsMissing | services/credit_service.go:72-85 | Penalties of two entries of one credit add up (1000 becomes 1015), and an entry whose credit is missing is skipped without failing the batch. |
| CreditService.GetCreditByID | services/credit_service.go:61-63 | Returns the stored credit, or `sql.ErrNoRows` when the id is absent. |
| CreditService.GetSchedule | services/credit_service.go:98-100 | A failing schedule query returns its error. Otherwise the call returns exactly the credit's installments, each once, ordered by due date. |
| CreditService.IssuedScheduleIsListed | services/credit_service.go:98-100 | After a fault-free issue, every one of the twelve new installments appears in the schedule of the credit's stored id, provided the caller passed that id. |
| Analytics.GetAnalytics | services/analytics_service.go:42-82 | A failing deposit sum, withdrawal sum or credit query, in that order, returns its error. Otherwise deposits and withdrawals are passed through and the net change is their difference. The credit load is the user's installments due strictly inside the window, divided by positive deposits, or 0 when deposits are not positive. |
| Analytics.MonthlyPaymentsAreDue | services/analytics_service.go:56-69 | The nested loops over the user's credits and their schedules add up exactly the installments of the user's credits that fall due strictly inside the window. A credit whose schedule query fails contributes nothing. |
| Analytics.MonthlyPaymentsSumsCredits | services/analytics_service.go:60-69 | Summed over any list of credits with distinct ids, the per-credit window sums equal one sum over all schedule rows of those credits. |
| Analytics.WindowSumSort | services/analytics_service.go:63-68 | Ordering a schedule by due date does not change its window sum. |
| Analytics.PredictBalance | services/analytics_service.go:84-90 | For a stored account the forecast lies exactly 50 per day below the balance. For an unknown account the lookup error is returned. |
| Analytics.PredictBalanceDecreases | services/analytics_service.go:84-90 | Each further day lowers the forecast. |
| CardUtils.ComputeLuhnCheckDigit | utils/card_utils.go:31-47 | The right-to-left loop returns a digit 0..9, and appending it makes the number pass the Luhn check. |
| CardUtils.CheckDigitIsUnique | utils/card_utils.go:31-47 | A digit completes a payload to a Luhn-valid number exactly when it is the digit the loop computes. |
| CardUtils.GenerateCardNumber | utils/card_utils.go:19-29 | The number has 16 decimal digits, begins with the fifteen drawn digits, and passes the Luhn check. |
| CardUtils.DecimalRoundTrip | utils/card_utils.go:57-63 | Reading back the decimal text of a natural number gives that number. |
| CardUtils.GenerateCVV | utils/card_utils.go:57-63 | A successful draw n gives three decimal digits, not starting with 0, that denote n + 100. A failed draw returns its error. |
| CardUtils.AddYears | utils/card_utils.go:51-52 | Adding years keeps the date valid and keeps its month and day. 29 February stays 29 February when the target year is a leap year and becomes 1 March otherwise. |
| CardUtils.Pad2 | utils/card_utils.go:53 | `%02d` of 0..99 is two decimal digits that denote the number. |
| CardUtils.GenerateExpirationDate | utils/card_utils.go:51-54 | Returns `MM/YY`: five characters with `/` in the middle, the month of the shifted date, and the shifted year modulo 100. |
| Registration.Validate | models/registration_input.go:7-17 | No error exactly when the email is present and well-formed, the username has 3 to 30 characters, and the password has at least 8. Each field reports at most one error: "required" exactly when it is empty, otherwise the first of its other rules that fails. |
| Registration.ValidateInFieldOrder | models/registration_input.go:7-17 | The errors come in the order of the struct's fields: every e-mail error before every username error, and every username error before every password error. |
| Registration.LongUsernameRefused | models/registration_input.go:9-11 | A 31-character username is refused with a too-long error, even when the other fields are fine. |

## Left out

- HTTP handlers, middleware, JWT, the user repository and service, the card service and repository, the PGP/AES/bcrypt helpers, the SMTP and central-bank SOAP clients, and the cron scheduler: they are outside this core.
- Transactions as SQL: the model keeps only their effect. Each query error the code reacts to is a parameter; concurrency, isolation and lock order are not modelled.
- Accounts.Create: the INSERT's own storage error is not modelled. The same holds for the other single statements that only pass the driver's error on: Accounts.UpdateBalance, Credits.Create, Credits.UpdateAmount (beyond "credit N not found"), Credits.GetByUserID, Schedules.Create, Schedules.Update, Schedules.GetOverdueUnpaid and Schedules.GetByCreditID as repository calls. Inside the services these errors are parameters: `IssueFault`, `queryFails`, `updateFails`, `creditQueryFails`, `scheduleFails`, and the `queryFails` of CreditService.GetSchedule.
- Accounts.GetByID: a lookup fails only with `sql.ErrNoRows`. Other database errors of the three `GetByID` lookups are not modelled, so CreditService.GetCreditByID and Analytics.PredictBalance fail only when the id is absent.
- Accounts.UpdateBalance: the model is the sequential effect. The atomicity of the database's read-modify-write under concurrent updates is not modelled.
- CreditService.ApplyForCredit: the annuity payment is a function parameter. `float64` rounding, `math.Pow`, and the division by zero at a zero rate are not modelled.
- CreditService.ApplyForCredit: the code stamps `time.Now()` into the caller's record, and the handler returns that record. The stored `created_at` is the database's `NOW()`, and each installment's stored `created_at` is a further database `NOW()` taken at its own INSERT. The `time.Now()` the service writes into each installment is never stored. The model uses one instant `now` for all of these and does not return the caller's record.
- CreditService.ApplyForCredit: only one failing INSERT per call is modelled (`IssueFault`). Installments after the first failure are never attempted, so this loses nothing.
- Base.AddMonths: Go's `AddDate(0, i, 0)` calendar arithmetic, with its day-of-month normalization, is a fixed thirty-day month. Due dates still rise strictly with i, as in the code.
- Analytics.GetAnalytics: the start of the month is the parameter `start`, and the model does not relate it to `now`. In the code it comes from two calls to `time.Now()`: `Truncate(24h)` rounds absolute (UTC) time, while `Day()` and `AddDate` use the local zone. The upper bound of the window calls `time.Now()` once per schedule entry. The model reads all those calls as one instant `now`. The deposit and withdrawal sums come from the transaction repository, which is not part of this model, so they are parameters.
- Analytics.PredictBalance: `float64` arithmetic is an exact real.
- Credits.GetByUserID: the query has no `ORDER BY`, and the model returns rows in ascending id order, one order the database may use. The same holds for Schedules.GetOverdueUnpaid.
- Schedules.GetByCreditID: rows with equal due dates come back in insertion-sort order. The database may order ties differently.
- CardUtils.ComputeLuhnCheckDigit: requires a string of decimal digits. On other bytes the Go code computes with the wrapped byte difference. Its only caller passes digits.
- CardUtils.GenerateCardNumber: the draws are assumed to succeed. When the random source fails, the Go code discards the error and appends the text of a nil number.
- CardUtils.GenerateExpirationDate: today's date is a parameter in the proleptic Gregorian calendar, and the time zone is not modelled.
- Registration.Validate: whether a string is a well-formed e-mail address is the validator library's rule, so it is the parameter `isEmail`. Validation errors are a list of failed rules, not the library's error type.

=== FILE: account_service.dfy ===
/** The account service (services/account_service.go): thin wrappers that
    pass each request straight to the accounts repository. */
module AccountService {
  import opened Base
  import opened Accounts

  /** `CreateAccount`: no validation of user id or currency, even though the
      row type is tagged `required`; the row is inserted as given. */
  function CreateAccount(t: Table, a: Account, now: Time): (r: Table)
    requires Valid(t)
    ensures Valid(r) && r.nextId == t.nextId + 1
    ensures r.rows.Keys == t.rows.Keys + {t.nextId}
    ensures var stored := r.rows[t.nextId];
      stored.userId == a.userId && stored.balance == a.balance && stored.currency == a.currency
    ensures forall k :: k in t.rows ==> r.rows[k] == t.rows[k]
  {
    Create(t, a, now)
  }

  /** `Deposit(id, amt)`: adds amt to the account, whatever its sign. */
  function Deposit(t: Table, id: int, amt: Money): (w: Write)
    ensures w.outcome == Pass
    ensures w.after.rows.Keys == t.rows.Keys && w.after.nextId == t.nextId
    ensures id in t.rows ==> w.after.rows[id].balance == t.rows[id].balance + amt
    ensures id in t.rows ==> w.after.rows[id] == t.rows[id].(balance := w.after.rows[id].balance)
    ensures forall k :: k in t.rows && k != id ==> w.after.rows[k] == t.rows[k]
    ensures id !in t.rows ==> w.after == t
  {
    UpdateBalance(t, id, amt)
  }

  /** `Withdraw(id, amt)`: subtracts amt, with no check on amt or on the
      balance it leaves. */
  function Withdraw(t: Table, id: int, amt: Money): (w: Write)
    ensures w.outcome == Pass
    ensures w.after.rows.Keys == t.rows.Keys && w.after.nextId == t.nextId
    ensures id in t.rows ==> w.after.rows[id].balance == t.rows[id].balance - amt
    ensures id in t.rows ==> w.after.rows[id] == t.rows[id].(balance := w.after.rows[id].balance)
    ensures forall k :: k in t.rows && k != id ==> w.after.rows[k] == t.rows[k]
    ensures id !in t.rows ==> w.after == t
  {
    UpdateBalance(t, id, -amt)
  }

  /** `Transfer`: the repository transaction, run as is. */
  function Transfer(t: Table, from: int, to: int, amt: Money, fault: TxFault): (w: Write)
    ensures fault != NoFault ==> w.after == t
    ensures fault == BeginFails ==> w.outcome == Fail(BeginFailed)
    ensures fault == DebitFails ==> w.outcome == Fail(DebitFailed(from))
    ensures fault == CreditFails ==> w.outcome == Fail(CreditFailed(to))
    ensures fault == CommitFails ==> w.outcome == Fail(CommitFailed)
    ensures fault == NoFault ==> w.outcome == Pass
    ensures w.after.rows.Keys == t.rows.Keys && w.after.nextId == t.nextId
    ensures fault == NoFault && from != to && from in t.rows ==>
      w.after.rows[from] == t.rows[from].(balance := t.rows[from].balance - amt)
    ensures fault == NoFault && from != to && to in t.rows ==>
      w.after.rows[to] == t.rows[to].(balance := t.rows[to].balance + amt)
    ensures forall k :: k in t.rows && k != from && k != to ==> w.after.rows[k] == t.rows[k]
    ensures from == to ==> w.after == t
  {
    TransferTx(t, from, to, amt, fault)
  }

  /** Every transfer between existing accounts keeps the ledger total: the
      failed ones change nothing, the committed ones move money. */
  lemma TransferConserves(t: Table, from: int, to: int, amt: Money, fault: TxFault)
    requires Valid(t) && from in t.rows && to in t.rows
    ensures Total(Transfer(t, from, to, amt, fault).after) == Total(t)
  {
    if fault == NoFault {
      TransferTxConserves(t, from, to, amt);
    }
  }

  /** Depositing and then withdrawing the same amount restores the table. */
  lemma DepositThenWithdrawRestores(t: Table, id: int, amt: Money)
    ensures Withdraw(Deposit(t, id, amt).after, id, amt).after == t
  {
    if id in t.rows {
      var t2 := Withdraw(Deposit(t, id, amt).after, id, amt).after;
      assert t2.rows[id] == t.rows[id];
      assert t2.rows == t.rows;
    }
  }

  /** Withdrawing more than the balance succeeds and overdraws the account. */
  lemma WithdrawOverdraws(t: Table, id: int, amt: Money)
    requires id in t.rows && amt > t.rows[id].balance
    ensures Withdraw(t, id, amt).outcome == Pass
    ensures Withdraw(t, id, amt).after.rows[id].balance < 0.0
  {
  }

  /** Deposits and withdrawals move the ledger total by exactly their amount
      when the account exists, and not at all otherwise. */
  lemma DepositWithdrawTotals(t: Table, id: int, amt: Money)
    requires Valid(t)
    ensures Total(Deposit(t, id, amt).after) == Total(t) + (if id in t.rows then amt else 0.0)
    ensures Total(Withdraw(t, id, amt).after) == Total(t) - (if id in t.rows then amt else 0.0)
  {
    if id in t.rows {
      TotalAfterAdjust(t, Deposit(t, id, amt).after, id, amt);
      TotalAfterAdjust(t, Withdraw(t, id, amt).after, id, -amt);
    }
  }
}

=== FILE: accounts.dfy ===
/** The `accounts` table and its repository (repositories/account_repository.go),
    with the table held in memory as a map from account id to row. */
module Accounts {
  import opened Base

  /** One row of `accounts`. */
  datatype Account = Account(id: int, userId: int, balance: Money, currency: string, createdAt: Time)

  /** The table: its rows by id, and the next value of the id sequence. */
  datatype Table = Table(rows: map<int, Account>, nextId: int)

  /** The result of a statement that writes the table: the table afterwards
      and the error the Go function returns. */
  datatype Write = Write(after: Table, outcome: Outcome)

  /** Where a transfer transaction can break: beginning it, either UPDATE,
      or the commit. `NoFault` is the run in which the database never errs. */
  datatype TxFault = NoFault | BeginFails | DebitFails | CreditFails | CommitFails

  /** Ids come from a sequence starting at 1, and each row stores its own id. */
  ghost predicate Valid(t: Table) {
    && t.nextId >= 1
    && forall k :: k in t.rows ==> 1 <= k < t.nextId && t.rows[k].id == k
  }

  /** `SUM(balance)` over the rows with ids from `from` up to the sequence's
      next value. */
  function SumFrom(t: Table, from: int): Money
    decreases t.nextId - from
  {
    if from >= t.nextId then 0.0
    else (if from in t.rows then t.rows[from].balance else 0.0) + SumFrom(t, from + 1)
  }

  /** Money held by the whole ledger. */
  function Total(t: Table): Money {
    SumFrom(t, 1)
  }

  /** Changing one balance by delta changes each partial sum that covers it by delta. */
  lemma {:induction false} SumFromAfterAdjust(t: Table, t': Table, id: int, delta: Money, from: int)
    requires id in t.rows && t'.rows.Keys == t.rows.Keys && t'.nextId == t.nextId
    requires t'.rows[id].balance == t.rows[id].balance + delta
    requires forall k :: k in t.rows && k != id ==> t'.rows[k].balance == t.rows[k].balance
    ensures SumFrom(t', from) == SumFrom(t, from) + (if from <= id < t.nextId then delta else 0.0)
    decreases t.nextId - from
  {
    if from < t.nextId {
      SumFromAfterAdjust(t, t', id, delta, from + 1);
    }
  }

  /** Changing one balance by delta changes the ledger total by delta. */
  lemma TotalAfterAdjust(t: Table, t': Table, id: int, delta: Money)
    requires Valid(t) && id in t.rows && t'.rows.Keys == t.rows.Keys && t'.nextId == t.nextId
    requires t'.rows[id].balance == t.rows[id].balance + delta
    requires forall k :: k in t.rows && k != id ==> t'.rows[k].balance == t.rows[k].balance
    ensures Total(t') == Total(t) + delta
  {
    SumFromAfterAdjust(t, t', id, delta, 1);
  }

  /** `Create`: INSERT a row with the caller's user id, balance and currency,
      stamped `now`. The id comes from the sequence; the caller's own `id`
      field is neither used nor written back, so Go's `Create` returns only
      the error (always nil here). */
  function Create(t: Table, a: Account, now: Time): (r: Table)
    requires Valid(t)
    ensures Valid(r) && r.nextId == t.nextId + 1
    ensures t.nextId !in t.rows && r.rows.Keys == t.rows.Keys + {t.nextId}
    ensures r.rows[t.nextId] == Account(t.nextId, a.userId, a.balance, a.currency, now)
    ensures forall k :: k in t.rows ==> r.rows[k] == t.rows[k]
  {
    Table(t.rows[t.nextId := Account(t.nextId, a.userId, a.balance, a.currency, now)], t.nextId + 1)
  }

  /** `GetByID`: the stored row, or `sql.ErrNoRows`. */
  function GetByID(t: Table, id: int): (r: Result<Account>)
    ensures r.Ok? <==> id in t.rows
    ensures r.Ok? ==> r.value == t.rows[id]
    ensures r.Err? ==> r.error == NoRows
  {
    Lookup(t.rows, id)
  }

  /** Reading back the id a `Create` used returns the caller's user,
      balance and currency, and every older account is still there. */
  lemma CreateThenGetByID(t: Table, a: Account, now: Time, id: int)
    requires Valid(t)
    ensures var r := GetByID(Create(t, a, now), id);
      && (id == t.nextId ==> r == Ok(Account(id, a.userId, a.balance, a.currency, now)))
      && (id != t.nextId ==> r == GetByID(t, id))
  {
  }

  /** `UpdateBalance`: `UPDATE accounts SET balance = balance + delta WHERE id = ...`.
      An unknown id matches zero rows; nobody checks the row count, so that
      is a silent success. */
  function UpdateBalance(t: Table, id: int, delta: Money): (w: Write)
    ensures w.outcome == Pass
    ensures w.after.nextId == t.nextId && w.after.rows.Keys == t.rows.Keys
    ensures id in t.rows ==> w.after.rows[id] == t.rows[id].(balance := t.rows[id].balance + delta)
    ensures forall k :: k in t.rows && k != id ==> w.after.rows[k] == t.rows[k]
    ensures id !in t.rows ==> w.after == t
  {
    if id in t.rows then
      Write(t.(rows := t.rows[id := t.rows[id].(balance := t.rows[id].balance + delta)]), Pass)
    else
      Write(t, Pass)
  }

  lemma UpdateBalancePreservesValid(t: Table, id: int, delta: Money)
    requires Valid(t)
    ensures Valid(UpdateBalance(t, id, delta).after)
  {
  }

  /** `TransferTx`: inside one transaction, debit `from` and credit `to` by
      `amount`, then commit. Every failure returns early and the deferred
      rollback discards the transaction's work, so the table is untouched.
      Nothing checks the sign of `amount`, that `from` can afford it, that
      `from != to`, or that either account exists. */
  function TransferTx(t: Table, from: int, to: int, amount: Money, fault: TxFault): (w: Write)
    ensures fault != NoFault ==> w.after == t && w.outcome.Fail?
    ensures fault == BeginFails ==> w.outcome == Fail(BeginFailed)
    ensures fault == DebitFails ==> w.outcome == Fail(DebitFailed(from))
    ensures fault == CreditFails ==> w.outcome == Fail(CreditFailed(to))
    ensures fault == CommitFails ==> w.outcome == Fail(CommitFailed)
    ensures fault == NoFault ==> w.outcome == Pass
    ensures w.after.nextId == t.nextId && w.after.rows.Keys == t.rows.Keys
    ensures fault == NoFault && from != to && from in t.rows ==>
      w.after.rows[from] == t.rows[from].(balance := t.rows[from].balance - amount)
    ensures fault == NoFault && from != to && to in t.rows ==>
      w.after.rows[to] == t.rows[to].(balance := t.rows[to].balance + amount)
    ensures forall k :: k in t.rows && k != from && k != to ==> w.after.rows[k] == t.rows[k]
    ensures from == to ==> w.after == t
  {
    var debited := UpdateBalance(t, from, -amount).after;
    var credited := UpdateBalance(debited, to, amount).after;
    match fault
    case BeginFails => Write(t, Fail(BeginFailed))
    case DebitFails => Write(t, Fail(DebitFailed(from)))
    case CreditFails => Write(t, Fail(CreditFailed(to)))
    case CommitFails => Write(t, Fail(CommitFailed))
    case NoFault => Write(credited, Pass)
  }

  lemma TransferTxPreservesValid(t: Table, from: int, to: int, amount: Money, fault: TxFault)
    requires Valid(t)
    ensures Valid(TransferTx(t, from, to, amount, fault).after)
  {
  }

  /** Conservation: a committed transfer between two existing accounts keeps
      the ledger total. */
  lemma TransferTxConserves(t: Table, from: int, to: int, amount: Money)
    requires Valid(t) && from in t.rows && to in t.rows
    ensures Total(TransferTx(t, from, to, amount, NoFault).after) == Total(t)
  {
    var debited := UpdateBalance(t, from, -amount).after;
    TotalAfterAdjust(t, debited, from, -amount);
    TotalAfterAdjust(debited, UpdateBalance(debited, to, amount).after, to, amount);
  }

  /** With a missing destination the credit UPDATE matches nothing, yet the
      debit commits: `amount` leaves the ledger. */
  lemma TransferTxToMissingLosesAmount(t: Table, from: int, to: int, amount: Money)
    requires Valid(t) && from in t.rows && to !in t.rows
    ensures TransferTx(t, from, to, amount, NoFault).outcome == Pass
    ensures Total(TransferTx(t, from, to, amount, NoFault).after) == Total(t) - amount
  {
    TotalAfterAdjust(t, UpdateBalance(t, from, -amount).after, from, -amount);
  }

  /** No sufficiency check: an account holding 10 can send 25 and is left at -15. */
  lemma TransferTxOverdraws()
    ensures
      var t := Table(map[1 := Account(1, 7, 10.0, "RUB", 0), 2 := Account(2, 8, 0.0, "RUB", 0)], 3);
      var w := TransferTx(t, 1, 2, 25.0, NoFault);
      w.outcome == Pass && w.after.rows[1].balance == -15.0 && w.after.rows[2].balance == 25.0
  {
  }
}

=== FILE: analytics.dfy ===
/** The analytics service (services/analytics_service.go): the monthly
    summary of a user's money and credit load, and the balance forecast.
    The deposit and withdrawal sums come from the transactions table, which
    is not part of this model; they are passed in as query results. */
module Analytics {
  import opened Base
  import Accounts
  import Credits
  import Schedules

  /** Money the forecast assumes an account spends per day. */
  const DailySpend: real := 50.0

  datatype AnalyticsData = AnalyticsData(
    totalDeposits: Money, totalWithdrawals: Money, netChange: Money, creditLoad: real)

  /** Sum of the amounts of the entries due strictly between lo and hi. */
  function WindowSum(es: seq<Schedules.Entry>, lo: Time, hi: Time): Money {
    if es == [] then 0.0
    else (if lo < es[0].dueDate < hi then es[0].amount else 0.0) + WindowSum(es[1..], lo, hi)
  }

  /** The inner loops of `GetAnalytics`: for each credit, the entries of its
      schedule due inside the window. A credit whose schedule query fails
      (its id is in `scheduleFails`) contributes nothing, since the error is
      discarded and the nil list is iterated. */
  function MonthlyPayments(cs: seq<Credits.Credit>, st: Schedules.Table, scheduleFails: set<int>,
                           lo: Time, hi: Time): Money
    requires Schedules.Valid(st)
  {
    if cs == [] then 0.0
    else
      (if cs[0].id in scheduleFails then 0.0 else WindowSum(Schedules.GetByCreditID(st, cs[0].id), lo, hi))
      + MonthlyPayments(cs[1..], st, scheduleFails, lo, hi)
  }

  /** Reference sum over a list of schedule rows: the amounts of the rows
      that belong to one of the credits `ids` and fall due strictly between
      lo and hi. */
  function DueWithin(es: seq<Schedules.Entry>, ids: set<int>, lo: Time, hi: Time): Money {
    if es == [] then 0.0
    else (if es[0].creditId in ids && lo < es[0].dueDate < hi then es[0].amount else 0.0)
         + DueWithin(es[1..], ids, lo, hi)
  }

  /** The ids of the user's credits. */
  ghost function UserCreditIds(ct: Credits.Table, userId: int): set<int> {
    set k | k in ct.rows && ct.rows[k].userId == userId
  }

  /** What the user owes inside the window, summed straight over the whole
      schedule table. */
  ghost function PaymentsDue(ct: Credits.Table, st: Schedules.Table, scheduleFails: set<int>,
                             userId: int, lo: Time, hi: Time): Money
    requires Schedules.Valid(st)
  {
    DueWithin(Schedules.AllRows(st), UserCreditIds(ct, userId) - scheduleFails, lo, hi)
  }

  /** `GetAnalytics`: deposits and withdrawals since the start of the month,
      their difference, and the credit load: the installments due strictly
      after `start` and strictly before one month from `now`, paid or not,
      divided by the deposits, or 0 when there are no positive deposits.
      A failing sum or credit query fails the call. */
  function GetAnalytics(userId: int, deposits: Result<Money>, withdrawals: Result<Money>,
                        ct: Credits.Table, creditQueryFails: bool,
                        st: Schedules.Table, scheduleFails: set<int>,
                        start: Time, now: Time): (r: Result<AnalyticsData>)
    requires Credits.Valid(ct) && Schedules.Valid(st)
    ensures deposits.Err? ==> r == Err(deposits.error)
    ensures deposits.Ok? && withdrawals.Err? ==> r == Err(withdrawals.error)
    ensures deposits.Ok? && withdrawals.Ok? && creditQueryFails ==> r == Err(StorageFailed)
    ensures r.Ok? <==> deposits.Ok? && withdrawals.Ok? && !creditQueryFails
    ensures r.Ok? ==>
      && r.value.totalDeposits == deposits.value
      && r.value.totalWithdrawals == withdrawals.value
      && r.value.netChange + r.value.totalWithdrawals == r.value.totalDeposits
    ensures r.Ok? && deposits.value > 0.0 ==>
      r.value.creditLoad == PaymentsDue(ct, st, scheduleFails, userId, start, AddMonths(now, 1)) / deposits.value
    ensures r.Ok? && deposits.value <= 0.0 ==> r.value.creditLoad == 0.0
  {
    if deposits.Err? then Err(deposits.error)
    else if withdrawals.Err? then Err(withdrawals.error)
    else if creditQueryFails then Err(StorageFailed)
    else
      var d := deposits.value;
      var w := withdrawals.value;
      var credits := Credits.GetByUserID(ct, userId);
      var hi := AddMonths(now, 1);
      var total := MonthlyPayments(credits, st, scheduleFails, start, hi);
      MonthlyPaymentsAreDue(ct, st, scheduleFails, userId, start, hi);
      Ok(AnalyticsData(d, w, d - w, if d > 0.0 then total / d else 0.0))
  }

  /** `PredictBalance`: the balance less 50 per day, or the lookup error.
      The handler only calls it with days > 0; the service accepts any. */
  function PredictBalance(accounts: Accounts.Table, accountId: int, days: int): (r: Result<Money>)
    ensures accountId !in accounts.rows ==> r == Err(NoRows)
    ensures accountId in accounts.rows ==>
      r.Ok? && accounts.rows[accountId].balance - r.value == DailySpend * days as real
  {
    match Accounts.GetByID(accounts, accountId)
    case Err(e) => Err(e)
    case Ok(acc) => Ok(acc.balance - days as real * DailySpend)
  }

  /** Each further day lowers the forecast. */
  lemma PredictBalanceDecreases(accounts: Accounts.Table, accountId: int, days: int, days': int)
    requires accountId in accounts.rows && days < days'
    ensures PredictBalance(accounts, accountId, days').value < PredictBalance(accounts, accountId, days).value
  {
  }

  // Sorting a schedule does not change its window sum.

  lemma {:induction false} WindowSumInsert(e: Schedules.Entry, es: seq<Schedules.Entry>, lo: Time, hi: Time)
    requires Schedules.SortedByDue(es)
    ensures WindowSum(Schedules.InsertByDue(e, es), lo, hi) == WindowSum([e], lo, hi) + WindowSum(es, lo, hi)
  {
    if es != [] && e.dueDate > es[0].dueDate {
      WindowSumInsert(e, es[1..], lo, hi);
    }
  }

  lemma {:induction false} WindowSumSort(es: seq<Schedules.Entry>, lo: Time, hi: Time)
    ensures WindowSum(Schedules.SortByDue(es), lo, hi) == WindowSum(es, lo, hi)
  {
    if es != [] {
      WindowSumSort(es[1..], lo, hi);
      WindowSumInsert(es[0], Schedules.SortByDue(es[1..]), lo, hi);
    }
  }

  /** One credit's rows, summed over its own list or picked out of all rows. */
  lemma {:induction false} WindowSumOfCredit(st: Schedules.Table, k: int, from: int, lo: Time, hi: Time)
    requires Schedules.Valid(st)
    ensures WindowSum(Schedules.SelectFrom(st, Schedules.OfCredit(k), from), lo, hi)
         == DueWithin(Schedules.SelectFrom(st, Schedules.Any, from), {k}, lo, hi)
    decreases st.nextId - from
  {
    if from < st.nextId {
      WindowSumOfCredit(st, k, from + 1, lo, hi);
      var mine := Schedules.SelectFrom(st, Schedules.OfCredit(k), from + 1);
      var all := Schedules.SelectFrom(st, Schedules.Any, from + 1);
      if from in st.rows {
        var e := st.rows[from];
        assert Schedules.SelectFrom(st, Schedules.Any, from) == [e] + all;
        assert ([e] + all)[1..] == all;
        if e.creditId == k {
          assert Schedules.SelectFrom(st, Schedules.OfCredit(k), from) == [e] + mine;
          assert ([e] + mine)[1..] == mine;
        } else {
          assert Schedules.SelectFrom(st, Schedules.OfCredit(k), from) == mine;
        }
      } else {
        assert Schedules.SelectFrom(st, Schedules.Any, from) == all;
        assert Schedules.SelectFrom(st, Schedules.OfCredit(k), from) == mine;
      }
    }
  }

  /** The reference sum splits over a credit added to the set. */
  lemma {:induction false} DueWithinSplit(es: seq<Schedules.Entry>, ids: set<int>, k: int, lo: Time, hi: Time)
    requires k !in ids
    ensures DueWithin(es, ids + {k}, lo, hi) == DueWithin(es, {k}, lo, hi) + DueWithin(es, ids, lo, hi)
  {
    if es != [] {
      DueWithinSplit(es[1..], ids, k, lo, hi);
    }
  }

  /** The ids of a list of credits. */
  function Ids(cs: seq<Credits.Credit>): (r: set<int>)
    ensures forall k :: k in r <==> exists i :: 0 <= i < |cs| && cs[i].id == k
  {
    if cs == [] then {}
    else
      var rest := Ids(cs[1..]);
      assert forall i :: 0 < i < |cs| ==> cs[1..][i - 1] == cs[i];
      {cs[0].id} + rest
  }

  /** The nested loops add up every credit's in-window installments, each
      credit once. */
  lemma {:induction false} MonthlyPaymentsSumsCredits(cs: seq<Credits.Credit>, st: Schedules.Table,
                                                      scheduleFails: set<int>, lo: Time, hi: Time)
    requires Schedules.Valid(st) && Credits.AscendingIds(cs)
    ensures MonthlyPayments(cs, st, scheduleFails, lo, hi)
         == DueWithin(Schedules.AllRows(st), Ids(cs) - scheduleFails, lo, hi)
  {
    var all := Schedules.AllRows(st);
    if cs == [] {
      assert Ids(cs) - scheduleFails == {};
      DueWithinNone(all, lo, hi);
    } else {
      var k := cs[0].id;
      var rest := cs[1..];
      MonthlyPaymentsSumsCredits(rest, st, scheduleFails, lo, hi);
      var restIds := Ids(rest) - scheduleFails;
      assert k !in Ids(rest) by {
        forall i | 0 <= i < |rest| ensures rest[i].id != k {
          assert rest[i] == cs[i + 1];
        }
      }
      assert Ids(cs) == {k} + Ids(rest);
      if k in scheduleFails {
        assert Ids(cs) - scheduleFails == restIds;
      } else {
        assert Ids(cs) - scheduleFails == restIds + {k};
        DueWithinSplit(all, restIds, k, lo, hi);
        WindowSumSort(Schedules.SelectFrom(st, Schedules.OfCredit(k), 1), lo, hi);
        WindowSumOfCredit(st, k, 1, lo, hi);
      }
    }
  }

  lemma {:induction false} DueWithinNone(es: seq<Schedules.Entry>, lo: Time, hi: Time)
    ensures DueWithin(es, {}, lo, hi) == 0.0
  {
    if es != [] {
      DueWithinNone(es[1..], lo, hi);
    }
  }

  /** The credit-load numerator is the user's total due in the window. */
  lemma MonthlyPaymentsAreDue(ct: Credits.Table, st: Schedules.Table, scheduleFails: set<int>,
                              userId: int, lo: Time, hi: Time)
    requires Credits.Valid(ct) && Schedules.Valid(st)
    ensures MonthlyPayments(Credits.GetByUserID(ct, userId), st, scheduleFails, lo, hi)
         == PaymentsDue(ct, st, scheduleFails, userId, lo, hi)
  {
    var cs := Credits.GetByUserID(ct, userId);
    MonthlyPaymentsSumsCredits(cs, st, scheduleFails, lo, hi);
    forall k | k in ct.rows && ct.rows[k].userId == userId ensures k in Ids(cs) {
      var c := ct.rows[k];
      assert c in cs;
      var i :| 0 <= i < |cs| && cs[i] == c;
    }
    assert Ids(cs) == UserCreditIds(ct, userId);
  }
}

=== FILE: base.dfy ===
/** Shared vocabulary of the bank ledger model: money, time, errors and
    the failure-carrying result types every repository and service returns. */
module Base {

  /** Amounts of money. The service stores `float64`; the model uses exact
      reals so that conservation statements are not blurred by rounding. */
  type Money = real

  /** Instants, in seconds on one global clock. */
  type Time = int

  /** `t.AddDate(0, n, 0)`: the instant n months after t, a month being
      thirty days of 86400 seconds. */
  function AddMonths(t: Time, n: int): (r: Time)
    ensures n > 0 ==> r > t
    ensures n == 0 ==> r == t
  {
    t + n * 2592000
  }

  /** Months are ordered like their offsets: a later month is a later instant. */
  lemma AddMonthsStrictlyMonotone(t: Time, i: int, j: int)
    requires i < j
    ensures AddMonths(t, i) < AddMonths(t, j)
  {
  }

  /** Errors the repositories and services can return. */
  datatype Error =
    | NoRows                    // a single-row lookup matched nothing (sql.ErrNoRows)
    | CreditNotFound(id: int)   // "credit N not found": an update matched zero rows
    | BeginFailed               // "begin tx: ..."
    | DebitFailed(from: int)    // "debit from N: ..."
    | CreditFailed(to: int)     // "credit to N: ..."
    | CommitFailed              // "commit tx: ..."
    | OverdueQueryFailed        // "failed to get overdue payments: ..."
    | StorageFailed             // any other database error, passed on unchanged
    | RandomSourceFailed        // the system's random source returned an error

  /** A value or the error that prevented computing it. */
  datatype Result<+T> = Ok(value: T) | Err(error: Error)

  /** The `error` return of an operation that produces no value. */
  datatype Outcome = Pass | Fail(error: Error)

  /** A single-row lookup by primary key: the stored row, or `sql.ErrNoRows`. */
  function Lookup<R>(rows: map<int, R>, id: int): (r: Result<R>)
    ensures r.Ok? <==> id in rows
    ensures r.Ok? ==> r.value == rows[id]
    ensures r.Err? ==> r.error == NoRows
  {
    if id in rows then Ok(rows[id]) else Err(NoRows)
  }
}

=== FILE: card_utils.dfy ===
/** The card helpers of utils/card_utils.go: the Luhn (mod 10) check digit of
    ISO/IEC 7812-1, Annex B, the 16-digit card number, the CVV and the
    "MM/YY" expiration date. Random draws and today's date are parameters. */
module CardUtils {
  import opened Base

  predicate IsDigit(c: char) {
    '0' <= c <= '9'
  }

  predicate AllDigits(s: string) {
    forall i :: 0 <= i < |s| ==> IsDigit(s[i])
  }

  /** `int(c - '0')` for a decimal digit. */
  function DigitValue(c: char): (d: int)
    requires IsDigit(c)
    ensures 0 <= d <= 9
  {
    c as int - '0' as int
  }

  /** The character of a decimal digit. */
  function DigitChar(d: int): (c: char)
    requires 0 <= d <= 9
    ensures IsDigit(c) && DigitValue(c) == d
  {
    ('0' as int + d) as char
  }

  // ---------------------------------------------------------------------
  // Decimal text: `strconv.Itoa` and `(*big.Int).String` for naturals

  /** The decimal representation of n, without leading zeros. */
  function DecimalString(n: nat): (s: string)
    ensures AllDigits(s) && |s| >= 1
    ensures n < 10 ==> s == [DigitChar(n)]
  {
    if n < 10 then [DigitChar(n)] else DecimalString(n / 10) + [DigitChar(n % 10)]
  }

  /** The number a string of decimal digits denotes. */
  function DecimalValue(s: string): nat
    requires AllDigits(s)
  {
    if s == [] then 0 else DecimalValue(s[..|s| - 1]) * 10 + DigitValue(s[|s| - 1])
  }

  /** Reading back the decimal text of n gives n. */
  lemma {:induction false} DecimalRoundTrip(n: nat)
    ensures DecimalValue(DecimalString(n)) == n
  {
    if n >= 10 {
      DecimalRoundTrip(n / 10);
      var s := DecimalString(n);
      assert s[..|s| - 1] == DecimalString(n / 10);
    }
  }

  /** Numbers from 100 to 999 take three digits, the first not zero. */
  lemma ThreeDigitLength(n: nat)
    requires 100 <= n <= 999
    ensures |DecimalString(n)| == 3 && DecimalString(n)[0] != '0'
  {
    assert DecimalString(n / 100) == [DigitChar(n / 100)];
    assert DecimalString(n / 10) == DecimalString(n / 100) + [DigitChar(n / 10 % 10)];
  }

  // ---------------------------------------------------------------------
  // Luhn check digit

  /** The doubling step: 2d, less 9 when that exceeds 9. */
  function Doubled(d: int): int {
    if 2 * d > 9 then 2 * d - 9 else 2 * d
  }

  /** The digit whose doubling step gives v: half of v when v is even,
      half of v + 9 when it is odd. */
  function Undoubled(v: int): int {
    if v % 2 == 0 then v / 2 else (v + 9) / 2
  }

  /** The doubling step maps the digits 0..9 one-to-one onto 0..9, with
      `Undoubled` as its inverse. */
  lemma DoublingPermutesDigits()
    ensures forall d :: 0 <= d <= 9 ==> 0 <= Doubled(d) <= 9 && Undoubled(Doubled(d)) == d
    ensures forall v :: 0 <= v <= 9 ==> 0 <= Undoubled(v) <= 9 && Doubled(Undoubled(v)) == v
  {
  }

  /** The Luhn sum of s, read from its last digit backwards, that digit
      doubled when `double` holds and every second one after it. */
  function LuhnSum(s: string, double: bool): nat
    requires AllDigits(s)
    decreases |s|
  {
    if s == [] then 0
    else
      var d := DigitValue(s[|s| - 1]);
      (if double then Doubled(d) else d) + LuhnSum(s[..|s| - 1], !double)
  }

  /** A number passes the Luhn check when its sum, doubling every second
      digit left of the check digit, is a multiple of 10. */
  predicate LuhnValid(s: string) {
    AllDigits(s) && |s| >= 1 && LuhnSum(s, false) % 10 == 0
  }

  /** Appending a check digit shifts the doubling by one place. */
  lemma LuhnSumAppend(p: string, c: char)
    requires AllDigits(p) && IsDigit(c)
    ensures AllDigits(p + [c])
    ensures LuhnSum(p + [c], false) == DigitValue(c) + LuhnSum(p, true)
  {
    assert (p + [c])[..|p|] == p;
  }

  /** `computeLuhnCheckDigit`: walk the payload from the right, doubling
      every second digit starting with the last, and return the digit that
      tops the sum up to a multiple of 10. */
  method ComputeLuhnCheckDigit(number: string) returns (check: int)
    requires AllDigits(number)
    ensures 0 <= check <= 9
    ensures LuhnValid(number + [DigitChar(check)])
  {
    var sum := 0;
    var double := true;
    var i := |number|;
    assert number[..i] == number;
    while i > 0
      invariant 0 <= i <= |number|
      invariant sum + LuhnSum(number[..i], double) == LuhnSum(number, true)
    {
      assert number[..i][..i - 1] == number[..i - 1];
      i := i - 1;
      var digit := DigitValue(number[i]);
      if double {
        digit := digit * 2;
        if digit > 9 {
          digit := digit - 9;
        }
      }
      sum := sum + digit;
      double := !double;
    }
    check := (10 - (sum % 10)) % 10;
    LuhnSumAppend(number, DigitChar(check));
  }

  /** Exactly one digit completes a payload to a valid number: the one
      `computeLuhnCheckDigit` returns. */
  lemma CheckDigitIsUnique(p: string, d: int)
    requires AllDigits(p) && 0 <= d <= 9
    ensures LuhnValid(p + [DigitChar(d)]) <==> d == (10 - LuhnSum(p, true) % 10) % 10
  {
    var s := LuhnSum(p, true);
    LuhnSumAppend(p, DigitChar(d));
    assert LuhnSum(p + [DigitChar(d)], false) == d + s;
    CompletesToTen(d, s);
  }

  /** d tops s up to a multiple of 10 exactly when d is (10 - s mod 10) mod 10. */
  lemma CompletesToTen(d: int, s: nat)
    requires 0 <= d <= 9
    ensures (d + s) % 10 == 0 <==> d == (10 - s % 10) % 10
  {
    var m := s % 10;
    var q := s / 10;
    assert s == 10 * q + m;
    if d + m < 10 {
      assert (d + s) % 10 == d + m;
    } else {
      assert (d + s) % 10 == d + m - 10;
    }
  }

  /** `GenerateCardNumber`: fifteen random digits, then their check digit.
      `draws` are the fifteen values `rand.Int(rand.Reader, 10)` returned;
      the error of that call is discarded in the source. */
  method GenerateCardNumber(draws: seq<int>) returns (number: string)
    requires |draws| == 15
    requires forall i :: 0 <= i < |draws| ==> 0 <= draws[i] < 10
    ensures |number| == 16 && AllDigits(number)
    ensures forall i :: 0 <= i < 15 ==> number[i] == DigitChar(draws[i])
    ensures LuhnValid(number)
  {
    number := "";
    var i := 0;
    while i < 15
      invariant 0 <= i <= 15 && |number| == i && AllDigits(number)
      invariant forall j :: 0 <= j < i ==> number[j] == DigitChar(draws[j])
    {
      number := number + DecimalString(draws[i]);
      i := i + 1;
    }
    var checkDigit := ComputeLuhnCheckDigit(number);
    number := number + DecimalString(checkDigit);
  }

  /** `GenerateCVV`: `strconv.Itoa(n + 100)` for the draw n of
      `rand.Int(rand.Reader, 900)`, or the draw's error. */
  function GenerateCVV(draw: Result<int>): (r: Result<string>)
    requires draw.Ok? ==> 0 <= draw.value < 900
    ensures draw.Err? ==> r == Err(draw.error)
    ensures draw.Ok? ==>
      && r.Ok? && |r.value| == 3 && AllDigits(r.value) && r.value[0] != '0'
      && DecimalValue(r.value) == draw.value + 100
  {
    match draw
    case Err(e) => Err(e)
    case Ok(n) =>
      ThreeDigitLength(n + 100);
      DecimalRoundTrip(n + 100);
      Ok(DecimalString(n + 100))
  }

  // ---------------------------------------------------------------------
  // Expiration date

  /** A calendar date of the proleptic Gregorian calendar. */
  datatype Date = Date(year: int, month: int, day: int)

  predicate IsLeap(year: int) {
    (year % 4 == 0 && year % 100 != 0) || year % 400 == 0
  }

  function DaysIn(month: int, year: int): int {
    if month == 2 then (if IsLeap(year) then 29 else 28)
    else if month == 4 || month == 6 || month == 9 || month == 11 then 30
    else 31
  }

  predicate ValidDate(d: Date) {
    1 <= d.month <= 12 && 1 <= d.day <= DaysIn(d.month, d.year)
  }

  /** `AddDate(n, 0, 0)`: the same day n years on. 29 February of a year
      that lands on a common year normalizes to 1 March. */
  function AddYears(d: Date, n: int): (r: Date)
    requires ValidDate(d)
    ensures ValidDate(r) && r.year == d.year + n
    ensures !(d.month == 2 && d.day == 29) ==> r.month == d.month && r.day == d.day
    ensures d.month == 2 && d.day == 29 ==>
      (r == Date(d.year + n, 2, 29) <==> IsLeap(d.year + n)) &&
      (r == Date(d.year + n, 3, 1) <==> !IsLeap(d.year + n))
  {
    if d.month == 2 && d.day == 29 && !IsLeap(d.year + n) then Date(d.year + n, 3, 1)
    else Date(d.year + n, d.month, d.day)
  }

  /** `fmt.Sprintf("%02d", n)` for 0 <= n <= 99. */
  function Pad2(n: int): (s: string)
    requires 0 <= n <= 99
    ensures |s| == 2 && AllDigits(s) && DecimalValue(s) == n
  {
    var s := [DigitChar(n / 10), DigitChar(n % 10)];
    assert s[..1] == [DigitChar(n / 10)];
    assert s[..1][..0] == [];
    assert DecimalValue(s[..1]) == n / 10;
    s
  }

  /** `GenerateExpirationDate`: the month and the last two digits of the
      year, `offsetYears` years from today, as "MM/YY". */
  function GenerateExpirationDate(offsetYears: int, today: Date): (r: string)
    requires ValidDate(today) && today.year + offsetYears >= 0
    ensures |r| == 5 && r[2] == '/' && AllDigits(r[..2]) && AllDigits(r[3..])
    ensures DecimalValue(r[..2]) == AddYears(today, offsetYears).month
    ensures DecimalValue(r[3..]) == (today.year + offsetYears) % 100
  {
    var t := AddYears(today, offsetYears);
    var mm := Pad2(t.month);
    var yy := Pad2(t.year % 100);
    var r := mm + "/" + yy;
    assert r[..2] == mm && r[3..] == yy;
    r
  }
}

=== FILE: credit_service.dfy ===
/** The credit service (services/credit_service.go): issuing a credit with
    its twelve-month schedule, the overdue-penalty batch, and the read-only
    lookups. The two tables it works on are passed in and returned. */
module CreditService {
  import opened Base
  import Credits
  import Schedules

  /** Number of monthly installments of every credit. */
  const Term: int := 12

  /** Share of an overdue installment added to the credit as a penalty. */
  const PenaltyRate: real := 0.10

  function Penalty(amount: Money): Money {
    amount * PenaltyRate
  }

  /** The credit and schedule tables together. */
  datatype Books = Books(credits: Credits.Table, schedules: Schedules.Table)

  /** The tables afterwards and the error the Go function returns. */
  datatype Step = Step(books: Books, outcome: Outcome)

  /** Which INSERT of `ApplyForCredit`, if any, the database rejects: the
      credit's own, or that of installment k. `EntryInsertFails(k)` with k
      outside 1..12 names no INSERT and behaves like `NoIssueFault`. */
  datatype IssueFault = NoIssueFault | CreditInsertFails | EntryInsertFails(installment: int)

  ghost predicate Valid(b: Books) {
    Credits.Valid(b.credits) && Schedules.Valid(b.schedules)
  }

  /** The installment whose INSERT fails; 0 names none. */
  function FailAt(fault: IssueFault): int {
    if fault.EntryInsertFails? then fault.installment else 0
  }

  /** How many installments the loop stores from installment i on when
      the INSERT of installment failAt fails. */
  function Filed(i: int, failAt: int): int {
    if i <= failAt <= Term then failAt - i else Term + 1 - i
  }

  /** How many installments `ApplyForCredit` stores before stopping. */
  function FiledCount(fault: IssueFault): int {
    if fault == CreditInsertFails then 0 else Filed(1, FailAt(fault))
  }

  /** The schedule row for installment i, as the service builds it. */
  function Installment(creditId: int, issued: Time, payment: Money, i: int, now: Time): Schedules.Entry {
    Schedules.Entry(0, creditId, AddMonths(issued, i), payment, false, now)
  }

  /** The loop `for i := 1; i <= 12; i++` from installment i on: store
      installment i and go on, or stop with the error at the installment
      whose INSERT fails. Rows stored before the failure stay. `base` is
      the id installment 1 received. */
  function Installments(t: Schedules.Table, base: int, creditId: int, issued: Time, payment: Money,
                        i: int, failAt: int, now: Time): (w: Schedules.Write)
    requires Schedules.Valid(t) && 1 <= i <= Term + 1 && t.nextId == base + i - 1
    ensures Schedules.Valid(w.after)
    ensures w.outcome == (if Filed(i, failAt) < Term + 1 - i then Fail(StorageFailed) else Pass)
    ensures w.after.nextId == t.nextId + Filed(i, failAt)
    ensures forall j :: j in w.after.rows <==> j in t.rows || t.nextId <= j < w.after.nextId
    ensures forall k :: k in t.rows ==> w.after.rows[k] == t.rows[k]
    ensures forall j :: t.nextId <= j < w.after.nextId ==>
      w.after.rows[j] == Schedules.Entry(j, creditId, AddMonths(issued, j - base + 1), payment, false, now)
    decreases Term + 1 - i
  {
    if i > Term then Schedules.Write(t, Pass)
    else if i == failAt then Schedules.Write(t, Fail(StorageFailed))
    else
      var t' := Schedules.Create(t, Installment(creditId, issued, payment, i, now), now);
      Installments(t', base, creditId, issued, payment, i + 1, failAt, now)
  }

  /** The whole installment loop, from installment 1, under the given fault. */
  function FileSchedule(t: Schedules.Table, creditId: int, issued: Time, payment: Money,
                        fault: IssueFault, now: Time): (w: Schedules.Write)
    requires Schedules.Valid(t) && fault != CreditInsertFails
    ensures Schedules.Valid(w.after)
    ensures w.outcome == (if FiledCount(fault) < Term then Fail(StorageFailed) else Pass)
    ensures w.after.nextId == t.nextId + FiledCount(fault)
    ensures forall j :: j in w.after.rows <==> j in t.rows || t.nextId <= j < w.after.nextId
    ensures forall k :: k in t.rows ==> w.after.rows[k] == t.rows[k]
    ensures forall j :: t.nextId <= j < w.after.nextId ==>
      w.after.rows[j] == Schedules.Entry(j, creditId, AddMonths(issued, j - t.nextId + 1), payment, false, now)
  {
    Installments(t, t.nextId, creditId, issued, payment, 1, FailAt(fault), now)
  }

  /** `ApplyForCredit`: stamp the credit `now`, INSERT it, then INSERT its
      twelve installments, installment i due i months after issue, each for
      the annuity payment of the credit's amount and rate, unpaid.
      The installments carry the caller's `credit.ID`: the repository never
      writes the new id back. Issuing is not atomic: if installment k fails,
      the credit and installments 1..k-1 stay stored. */
  function ApplyForCredit(b: Books, c: Credits.Credit, now: Time,
                          annuity: (Money, real) -> Money, fault: IssueFault): (r: Step)
    requires Valid(b)
    ensures Valid(r.books)
    ensures fault == CreditInsertFails ==> r.books == b && r.outcome == Fail(StorageFailed)
    ensures fault != CreditInsertFails ==>
      && r.books.credits.rows.Keys == b.credits.rows.Keys + {b.credits.nextId}
      && b.credits.nextId !in b.credits.rows
      && r.books.credits.rows[b.credits.nextId]
         == Credits.Credit(b.credits.nextId, c.userId, c.accountId, c.amount, c.interestRate, now)
      && (forall k :: k in b.credits.rows ==> r.books.credits.rows[k] == b.credits.rows[k])
      && r.books.credits.nextId == b.credits.nextId + 1
    ensures fault != CreditInsertFails ==>
      r.outcome == (if FiledCount(fault) < Term then Fail(StorageFailed) else Pass)
    ensures r.books.schedules.nextId == b.schedules.nextId + FiledCount(fault)
  {
    if fault == CreditInsertFails then Step(b, Fail(StorageFailed))
    else
      // The credit is stamped `now` and the schedule counts from that stamp.
      var credits := Credits.Create(b.credits, c, now);
      var w := FileSchedule(b.schedules, c.id, now, annuity(c.amount, c.interestRate), fault, now);
      Step(Books(credits, w.after), w.outcome)
  }

  /** The schedule `ApplyForCredit` leaves, as the installment loop left it. */
  lemma ApplyForCreditFiles(b: Books, c: Credits.Credit, now: Time,
                            annuity: (Money, real) -> Money, fault: IssueFault)
    requires Valid(b) && fault != CreditInsertFails
    ensures ApplyForCredit(b, c, now, annuity, fault).books.schedules
         == FileSchedule(b.schedules, c.id, now, annuity(c.amount, c.interestRate), fault, now).after
  {
  }

  /** `ApplyForCredit` only adds schedule rows, under the ids the sequence
      hands out next, and leaves the older rows as they were. */
  lemma ApplyForCreditKeepsSchedule(b: Books, c: Credits.Credit, now: Time,
                                    annuity: (Money, real) -> Money, fault: IssueFault)
    requires Valid(b)
    ensures var s := ApplyForCredit(b, c, now, annuity, fault).books.schedules;
      && (forall j :: j in s.rows <==> j in b.schedules.rows || b.schedules.nextId <= j < s.nextId)
      && (forall k :: k in b.schedules.rows ==> s.rows[k] == b.schedules.rows[k])
  {
    if fault != CreditInsertFails {
      ApplyForCreditFiles(b, c, now, annuity, fault);
    }
  }

  /** The rows `ApplyForCredit` adds: installment i takes the i-th id the
      sequence hands out, falls due i months after issue, refers to the
      caller's credit id, is for the annuity payment of the credit's amount
      and rate, and is unpaid. */
  lemma ApplyForCreditInstallment(b: Books, c: Credits.Credit, now: Time,
                                  annuity: (Money, real) -> Money, fault: IssueFault, j: int)
    requires Valid(b)
    requires b.schedules.nextId <= j < b.schedules.nextId + FiledCount(fault)
    ensures var s := ApplyForCredit(b, c, now, annuity, fault).books.schedules;
      j in s.rows &&
      s.rows[j] == Schedules.Entry(j, c.id, AddMonths(now, j - b.schedules.nextId + 1),
                                   annuity(c.amount, c.interestRate), false, now)
  {
    ApplyForCreditFiles(b, c, now, annuity, fault);
  }

  /** A credit issued without a fault has exactly twelve installments. */
  lemma ApplyForCreditFilesTwelve(b: Books, c: Credits.Credit, now: Time, annuity: (Money, real) -> Money)
    requires Valid(b)
    ensures var r := ApplyForCredit(b, c, now, annuity, NoIssueFault);
      && r.outcome == Pass
      && r.books.schedules.nextId == b.schedules.nextId + 12
      && forall j :: j in r.books.schedules.rows && j !in b.schedules.rows <==>
           b.schedules.nextId <= j < b.schedules.nextId + 12
  {
  }

  /** Later installments fall due strictly later. */
  lemma ApplyForCreditDueDatesIncrease(b: Books, c: Credits.Credit, now: Time,
                                       annuity: (Money, real) -> Money, fault: IssueFault, j: int, j': int)
    requires Valid(b)
    requires b.schedules.nextId <= j < j' < b.schedules.nextId + FiledCount(fault)
    ensures var r := ApplyForCredit(b, c, now, annuity, fault);
      r.books.schedules.rows[j].dueDate < r.books.schedules.rows[j'].dueDate
  {
    ApplyForCreditInstallment(b, c, now, annuity, fault, j);
    ApplyForCreditInstallment(b, c, now, annuity, fault, j');
    var n := b.schedules.nextId;
    AddMonthsStrictlyMonotone(now, j - n + 1, j' - n + 1);
  }

  /** The installments refer to the id in the caller's record. Unless the
      caller happened to pass the id the sequence hands out, no installment
      refers to the credit row just stored. */
  lemma ApplyForCreditLinksCallerId(b: Books, c: Credits.Credit, now: Time,
                                    annuity: (Money, real) -> Money, fault: IssueFault)
    requires Valid(b) && fault != CreditInsertFails && c.id != b.credits.nextId
    ensures var r := ApplyForCredit(b, c, now, annuity, fault);
      forall j :: j in r.books.schedules.rows && j !in b.schedules.rows ==>
        r.books.schedules.rows[j].creditId != b.credits.nextId
  {
  }

  /** The penalty owed to credit `creditId` by the entries `es`: 10% of each
      entry of that credit, except those whose credit update fails. */
  function PenaltyOwed(es: seq<Schedules.Entry>, creditId: int, updateFails: set<int>): Money {
    if es == [] then 0.0
    else
      (if es[0].creditId == creditId && es[0].id !in updateFails then Penalty(es[0].amount) else 0.0)
      + PenaltyOwed(es[1..], creditId, updateFails)
  }

  /** The loop over overdue entries: re-read the entry's credit, skip the
      entry if that fails, otherwise write back the credit's amount plus the
      penalty; skip if that write fails. `updateFails` holds the entries
      whose UPDATE the database rejects. */
  function ApplyPenalties(ct: Credits.Table, es: seq<Schedules.Entry>, updateFails: set<int>): (r: Credits.Table)
    requires Credits.Valid(ct)
    ensures Credits.Valid(r) && r.nextId == ct.nextId && r.rows.Keys == ct.rows.Keys
    ensures forall k :: k in ct.rows ==>
      r.rows[k] == ct.rows[k].(amount := ct.rows[k].amount + PenaltyOwed(es, k, updateFails))
    decreases |es|
  {
    if es == [] then ct
    else
      var p := es[0];
      var next :=
        match Credits.GetByID(ct, p.creditId)
        case Err(_) => ct
        case Ok(credit) =>
          if p.id in updateFails then ct
          else Credits.UpdateAmount(ct, credit.id, credit.amount + Penalty(p.amount)).after;
      ApplyPenalties(next, es[1..], updateFails)
  }

  /** `ProcessOverduePayments`: penalize every entry due before `now` and
      unpaid. Per-entry failures are logged and skipped; only a failing
      overdue query makes the call fail. No entry is marked paid. */
  function ProcessOverduePayments(b: Books, now: Time, queryFails: bool, updateFails: set<int>): (r: Step)
    requires Valid(b)
    ensures Valid(r.books)
    ensures queryFails ==> r == Step(b, Fail(OverdueQueryFailed))
    ensures !queryFails ==> r.outcome == Pass
    ensures r.books.schedules == b.schedules
    ensures r.books.credits.nextId == b.credits.nextId && r.books.credits.rows.Keys == b.credits.rows.Keys
    ensures !queryFails ==> forall k :: k in b.credits.rows ==>
      r.books.credits.rows[k] == b.credits.rows[k].(amount := b.credits.rows[k].amount
        + PenaltyOwed(Schedules.GetOverdueUnpaid(b.schedules, now), k, updateFails))
  {
    if queryFails then Step(b, Fail(OverdueQueryFailed))
    else
      var overdue := Schedules.GetOverdueUnpaid(b.schedules, now);
      Step(Books(ApplyPenalties(b.credits, overdue, updateFails), b.schedules), Pass)
  }

  /** Nothing marks an entry paid, so a second run at the same time finds
      the same overdue entries and charges every penalty again. */
  lemma {:induction false} ProcessTwiceChargesTwice(b: Books, now: Time, updateFails: set<int>)
    requires Valid(b)
    ensures var once := ProcessOverduePayments(b, now, false, updateFails).books;
      var twice := ProcessOverduePayments(once, now, false, updateFails).books;
      var owed := (k: int) => PenaltyOwed(Schedules.GetOverdueUnpaid(b.schedules, now), k, updateFails);
      forall k :: k in b.credits.rows ==>
        twice.credits.rows[k].amount == b.credits.rows[k].amount + 2.0 * owed(k)
  {
    var once := ProcessOverduePayments(b, now, false, updateFails).books;
    assert once.schedules == b.schedules;
  }

  /** A credit of 1000 with installments of 100 and 50, and an installment
      of 70 whose credit 9 does not exist; all three are unpaid. */
  const SampleBooks: Books := Books(
    Credits.Table(map[1 := Credits.Credit(1, 7, 3, 1000.0, 12.0, 0)], 2),
    Schedules.Table(map[
      1 := Schedules.Entry(1, 1, 10, 100.0, false, 0),
      2 := Schedules.Entry(2, 1, 20, 50.0, false, 0),
      3 := Schedules.Entry(3, 9, 20, 70.0, false, 0)], 4))

  /** Penalties of several entries of one credit add up: the two overdue
      installments raise the credit to 1015, and the entry whose credit is
      gone is skipped. */
  lemma ProcessAccumulatesAndSkipsMissing()
    ensures var r := ProcessOverduePayments(SampleBooks, 30, false, {});
      r.outcome == Pass && r.books.credits.rows[1].amount == 1015.0
  {
    SampleValid();
    var overdue := Schedules.GetOverdueUnpaid(SampleBooks.schedules, 30);
    SampleOverdue();
    SamplePenalty(overdue);
  }

  lemma SampleValid()
    ensures Valid(SampleBooks) && 1 in SampleBooks.credits.rows
    ensures SampleBooks.credits.rows[1].amount == 1000.0
  {
  }

  /** All three sample installments are overdue at time 30, in id order. */
  lemma SampleOverdue()
    ensures var st := SampleBooks.schedules;
      Schedules.GetOverdueUnpaid(st, 30) == [st.rows[1], st.rows[2], st.rows[3]]
  {
    var st := SampleBooks.schedules;
    var e1, e2, e3 := st.rows[1], st.rows[2], st.rows[3];
    assert Schedules.SelectFrom(st, Schedules.OverdueBefore(30), 4) == [];
    assert Schedules.SelectFrom(st, Schedules.OverdueBefore(30), 3) == [e3];
    assert Schedules.SelectFrom(st, Schedules.OverdueBefore(30), 2) == [e2, e3];
  }

  /** Credit 1 owes 10% of 100 and of 50; the installment of credit 9 adds nothing. */
  lemma SamplePenalty(overdue: seq<Schedules.Entry>)
    requires var st := SampleBooks.schedules; overdue == [st.rows[1], st.rows[2], st.rows[3]]
    ensures PenaltyOwed(overdue, 1, {}) == 15.0
  {
    var st := SampleBooks.schedules;
    var e2, e3 := st.rows[2], st.rows[3];
    assert overdue[1..] == [e2, e3] && overdue[1..][1..] == [e3] && overdue[1..][1..][1..] == [];
    assert PenaltyOwed([e3], 1, {}) == 0.0;
    assert PenaltyOwed([e2, e3], 1, {}) == 5.0;
  }

  /** `GetCreditByID`: the repository lookup. */
  function GetCreditByID(b: Books, id: int): (r: Result<Credits.Credit>)
    ensures r.Ok? <==> id in b.credits.rows
    ensures r.Ok? ==> r.value == b.credits.rows[id]
    ensures r.Err? ==> r.error == NoRows
  {
    Credits.GetByID(b.credits, id)
  }

  /** `GetSchedule`: the credit's installments by due date, or the error
      of the schedule query (`queryFails`), passed on unchanged. */
  function GetSchedule(b: Books, creditId: int, queryFails: bool): (r: Result<seq<Schedules.Entry>>)
    requires Valid(b)
    ensures r.Ok? <==> !queryFails
    ensures r.Err? ==> r.error == StorageFailed
    ensures r.Ok? ==> Schedules.SortedByDue(r.value)
    ensures r.Ok? ==>
      multiset(r.value) == multiset(Schedules.SelectFrom(b.schedules, Schedules.OfCredit(creditId), 1))
    ensures r.Ok? ==> forall e :: e in r.value <==>
      e.id in b.schedules.rows && b.schedules.rows[e.id] == e && e.creditId == creditId
  {
    if queryFails then Err(StorageFailed) else Ok(Schedules.GetByCreditID(b.schedules, creditId))
  }

  /** After a fault-free issue whose caller passed the id the sequence hands
      out, the credit's schedule lists its twelve new installments. */
  lemma IssuedScheduleIsListed(b: Books, c: Credits.Credit, now: Time, annuity: (Money, real) -> Money, j: int)
    requires Valid(b) && c.id == b.credits.nextId
    requires b.schedules.nextId <= j < b.schedules.nextId + Term
    ensures var r := ApplyForCredit(b, c, now, annuity, NoIssueFault);
      r.books.schedules.rows[j] in GetSchedule(r.books, r.books.credits.rows[c.id].id, false).value
  {
  }
}

=== FILE: credits.dfy ===
/** The `credits` table and its repository (repositories/credit_repository.go). */
module Credits {
  import opened Base

  /** One row of `credits`. `amount` is the outstanding amount that
      penalties raise. */
  datatype Credit = Credit(id: int, userId: int, accountId: int, amount: Money, interestRate: real, createdAt: Time)

  /** The table: its rows by id, and the next value of the id sequence. */
  datatype Table = Table(rows: map<int, Credit>, nextId: int)

  /** The table afterwards and the error the Go function returns. */
  datatype Write = Write(after: Table, outcome: Outcome)

  /** Ids come from a sequence starting at 1, and each row stores its own id. */
  ghost predicate Valid(t: Table) {
    && t.nextId >= 1
    && forall k :: k in t.rows ==> 1 <= k < t.nextId && t.rows[k].id == k
  }

  /** Ids strictly increase along the list, so no row appears twice. */
  ghost predicate AscendingIds(cs: seq<Credit>) {
    forall i, j :: 0 <= i < j < |cs| ==> cs[i].id < cs[j].id
  }

  /** `Create`: INSERT the caller's user, account, amount and interest rate,
      stamped `now`. The id comes from the sequence and is not written back
      into the caller's record. */
  function Create(t: Table, c: Credit, now: Time): (r: Table)
    requires Valid(t)
    ensures Valid(r) && r.nextId == t.nextId + 1
    ensures t.nextId !in t.rows && r.rows.Keys == t.rows.Keys + {t.nextId}
    ensures r.rows[t.nextId] == Credit(t.nextId, c.userId, c.accountId, c.amount, c.interestRate, now)
    ensures forall k :: k in t.rows ==> r.rows[k] == t.rows[k]
  {
    Table(t.rows[t.nextId := Credit(t.nextId, c.userId, c.accountId, c.amount, c.interestRate, now)], t.nextId + 1)
  }

  /** `GetByID`: the stored row, or `sql.ErrNoRows`. */
  function GetByID(t: Table, id: int): (r: Result<Credit>)
    ensures r.Ok? <==> id in t.rows
    ensures r.Ok? ==> r.value == t.rows[id]
    ensures r.Err? ==> r.error == NoRows
  {
    Lookup(t.rows, id)
  }

  /** Reading back the id a `Create` used returns the caller's fields,
      and every other lookup answers as before. */
  lemma CreateThenGetByID(t: Table, c: Credit, now: Time, id: int)
    requires Valid(t)
    ensures var r := GetByID(Create(t, c, now), id);
      && (id == t.nextId ==> r == Ok(Credit(id, c.userId, c.accountId, c.amount, c.interestRate, now)))
      && (id != t.nextId ==> r == GetByID(t, id))
  {
  }

  /** The user's rows with ids from `from` on, in id order. */
  function UserRowsFrom(t: Table, userId: int, from: int): (r: seq<Credit>)
    requires Valid(t)
    ensures AscendingIds(r)
    ensures forall c :: c in r <==> c.id in t.rows && t.rows[c.id] == c && c.userId == userId && c.id >= from
    decreases t.nextId - from
  {
    if from >= t.nextId then []
    else
      var rest := UserRowsFrom(t, userId, from + 1);
      if from in t.rows && t.rows[from].userId == userId then [t.rows[from]] + rest else rest
  }

  /** `GetByUserID`: `SELECT ... WHERE user_id = $1`. The query has no
      ORDER BY; the model returns the rows in id order, one of the orders the
      database may use. */
  function GetByUserID(t: Table, userId: int): (r: seq<Credit>)
    requires Valid(t)
    ensures AscendingIds(r)
    ensures forall c :: c in r <==> c.id in t.rows && t.rows[c.id] == c && c.userId == userId
  {
    UserRowsFrom(t, userId, 1)
  }

  /** `UpdateAmount`: `UPDATE credits SET amount = newAmount WHERE id = ...`,
      which replaces the amount; zero affected rows is reported as
      "credit N not found". */
  function UpdateAmount(t: Table, id: int, newAmount: Money): (w: Write)
    ensures w.after.nextId == t.nextId && w.after.rows.Keys == t.rows.Keys
    ensures id in t.rows ==> w.outcome == Pass && w.after.rows[id] == t.rows[id].(amount := newAmount)
    ensures id !in t.rows ==> w.outcome == Fail(CreditNotFound(id)) && w.after == t
    ensures forall k :: k in t.rows && k != id ==> w.after.rows[k] == t.rows[k]
  {
    if id in t.rows then Write(t.(rows := t.rows[id := t.rows[id].(amount := newAmount)]), Pass)
    else Write(t, Fail(CreditNotFound(id)))
  }

  lemma UpdateAmountPreservesValid(t: Table, id: int, newAmount: Money)
    requires Valid(t)
    ensures Valid(UpdateAmount(t, id, newAmount).after)
  {
  }

  /** Updating twice keeps only the second amount: the update replaces, it
      does not add. */
  lemma UpdateAmountReplaces(t: Table, id: int, a: Money, b: Money)
    ensures UpdateAmount(UpdateAmount(t, id, a).after, id, b) == UpdateAmount(t, id, b)
  {
  }
}

=== FILE: registration.dfy ===
/** The registration request and its field rules (models/registration_input.go),
    as declared by the struct tags `required,email`, `required,min=3,max=30`
    and `required,min=8`. Whether a string is a well-formed address is the
    validator library's business; it is a parameter here. */
module Registration {

  datatype RegistrationInput = RegistrationInput(email: string, username: string, password: string)

  /** The failed tag of one field. On each field the tags are tried in
      order and the first failure is reported. */
  datatype FieldError =
    | EmailRequired | EmailMalformed
    | UsernameRequired | UsernameTooShort | UsernameTooLong
    | PasswordRequired | PasswordTooShort

  /** The position of the field a rule belongs to: e-mail, username, password. */
  function FieldOf(e: FieldError): nat {
    match e
    case EmailRequired | EmailMalformed => 0
    case UsernameRequired | UsernameTooShort | UsernameTooLong => 1
    case PasswordRequired | PasswordTooShort => 2
  }

  function EmailErrors(email: string, isEmail: string -> bool): (r: seq<FieldError>)
    ensures r == [] || r == [EmailRequired] || r == [EmailMalformed]
    ensures r == [EmailRequired] <==> email == ""
    ensures r == [EmailMalformed] <==> email != "" && !isEmail(email)
  {
    if email == "" then [EmailRequired]
    else if !isEmail(email) then [EmailMalformed]
    else []
  }

  /** Lengths count characters (runes), not bytes. */
  function UsernameErrors(username: string): (r: seq<FieldError>)
    ensures r == [] || r == [UsernameRequired] || r == [UsernameTooShort] || r == [UsernameTooLong]
    ensures r == [UsernameRequired] <==> username == ""
    ensures r == [UsernameTooShort] <==> 0 < |username| < 3
    ensures r == [UsernameTooLong] <==> |username| > 30
  {
    if username == "" then [UsernameRequired]
    else if |username| < 3 then [UsernameTooShort]
    else if |username| > 30 then [UsernameTooLong]
    else []
  }

  function PasswordErrors(password: string): (r: seq<FieldError>)
    ensures r == [] || r == [PasswordRequired] || r == [PasswordTooShort]
    ensures r == [PasswordRequired] <==> password == ""
    ensures r == [PasswordTooShort] <==> 0 < |password| < 8
  {
    if password == "" then [PasswordRequired]
    else if |password| < 8 then [PasswordTooShort]
    else []
  }

  /** The rules of the three fields, stated directly. */
  predicate EmailOk(input: RegistrationInput, isEmail: string -> bool) {
    input.email != "" && isEmail(input.email)
  }

  predicate UsernameOk(input: RegistrationInput) {
    3 <= |input.username| <= 30
  }

  predicate PasswordOk(input: RegistrationInput) {
    |input.password| >= 8
  }

  /** The three per-field lists, joined: an error is in the join exactly when
      it makes up its own field's list. */
  lemma JoinedMembers(a: seq<FieldError>, b: seq<FieldError>, c: seq<FieldError>)
    requires a == [] || a == [EmailRequired] || a == [EmailMalformed]
    requires b == [] || b == [UsernameRequired] || b == [UsernameTooShort] || b == [UsernameTooLong]
    requires c == [] || c == [PasswordRequired] || c == [PasswordTooShort]
    ensures |a + b + c| <= 3
    ensures a + b + c == [] <==> a == [] && b == [] && c == []
    ensures EmailRequired in a + b + c <==> a == [EmailRequired]
    ensures EmailMalformed in a + b + c <==> a == [EmailMalformed]
    ensures UsernameRequired in a + b + c <==> b == [UsernameRequired]
    ensures UsernameTooShort in a + b + c <==> b == [UsernameTooShort]
    ensures UsernameTooLong in a + b + c <==> b == [UsernameTooLong]
    ensures PasswordRequired in a + b + c <==> c == [PasswordRequired]
    ensures PasswordTooShort in a + b + c <==> c == [PasswordTooShort]
  {
  }

  /** Errors listed field by field, each field at most once. */
  predicate InFieldOrder(errs: seq<FieldError>) {
    forall i, j :: 0 <= i < j < |errs| ==> FieldOf(errs[i]) < FieldOf(errs[j])
  }

  lemma JoinInFieldOrder(a: seq<FieldError>, b: seq<FieldError>, c: seq<FieldError>)
    requires a == [] || a == [EmailRequired] || a == [EmailMalformed]
    requires b == [] || b == [UsernameRequired] || b == [UsernameTooShort] || b == [UsernameTooLong]
    requires c == [] || c == [PasswordRequired] || c == [PasswordTooShort]
    ensures InFieldOrder(a + b + c)
  {
    var errs := a + b + c;
    forall i, j | 0 <= i < j < |errs|
      ensures FieldOf(errs[i]) < FieldOf(errs[j])
    {
      // with at most one error per field, i falls in an earlier part than j
      if i < |a| {
        assert FieldOf(errs[i]) == 0 && j >= |a| && FieldOf(errs[j]) >= 1;
      } else {
        assert i == |a| && |b| == 1 && FieldOf(errs[i]) == 1;
        assert j == |a| + 1 && FieldOf(errs[j]) == 2;
      }
    }
  }

  /** The tail of a list in field order is in field order, and belongs to
      later fields than the head. */
  lemma TailInFieldOrder(errs: seq<FieldError>)
    requires errs != [] && InFieldOrder(errs)
    ensures InFieldOrder(errs[1..])
    ensures forall e :: e in errs[1..] ==> FieldOf(errs[0]) < FieldOf(e)
  {
    var rest := errs[1..];
    forall i, j | 0 <= i < j < |rest| ensures FieldOf(rest[i]) < FieldOf(rest[j]) {
      assert rest[i] == errs[i + 1] && rest[j] == errs[j + 1];
    }
    forall e | e in rest ensures FieldOf(errs[0]) < FieldOf(e) {
      var k :| 0 <= k < |rest| && rest[k] == e;
      assert rest[k] == errs[k + 1];
    }
  }

  /** In a list in field order, two rules of one field occur at most once
      between them. */
  lemma {:induction false} OnceOfTwo(errs: seq<FieldError>, x: FieldError, y: FieldError)
    requires InFieldOrder(errs)
    requires x != y && FieldOf(x) == FieldOf(y)
    ensures multiset(errs)[x] + multiset(errs)[y] <= 1
  {
    if errs != [] {
      var rest := errs[1..];
      assert errs == [errs[0]] + rest;
      TailInFieldOrder(errs);
      OnceOfTwo(rest, x, y);
      assert multiset(errs) == multiset{errs[0]} + multiset(rest);
      if FieldOf(errs[0]) == FieldOf(x) {
        assert x !in rest && y !in rest;
      }
    }
  }

  lemma {:induction false} OnceOfThree(errs: seq<FieldError>, x: FieldError, y: FieldError, z: FieldError)
    requires InFieldOrder(errs)
    requires x != y && y != z && x != z && FieldOf(x) == FieldOf(y) == FieldOf(z)
    ensures multiset(errs)[x] + multiset(errs)[y] + multiset(errs)[z] <= 1
  {
    if errs != [] {
      var rest := errs[1..];
      assert errs == [errs[0]] + rest;
      TailInFieldOrder(errs);
      OnceOfThree(rest, x, y, z);
      assert multiset(errs) == multiset{errs[0]} + multiset(rest);
      if FieldOf(errs[0]) == FieldOf(x) {
        assert x !in rest && y !in rest && z !in rest;
      }
    }
  }

  /** The e-mail rules, read off the joined error list. */
  lemma EmailFacts(input: RegistrationInput, isEmail: string -> bool)
    ensures var errs := EmailErrors(input.email, isEmail) + UsernameErrors(input.username) + PasswordErrors(input.password);
      (!EmailOk(input, isEmail) <==> EmailRequired in errs || EmailMalformed in errs) &&
      (EmailRequired in errs <==> input.email == "") &&
      (EmailMalformed in errs <==> input.email != "" && !isEmail(input.email)) &&
      multiset(errs)[EmailRequired] + multiset(errs)[EmailMalformed] <= 1
  {
    var a, b, c := EmailErrors(input.email, isEmail), UsernameErrors(input.username),
      PasswordErrors(input.password);
    JoinedMembers(a, b, c);
    JoinInFieldOrder(a, b, c);
    OnceOfTwo(a + b + c, EmailRequired, EmailMalformed);
  }

  /** The username rules, read off the joined error list. */
  lemma UsernameFacts(input: RegistrationInput, isEmail: string -> bool)
    ensures var errs := EmailErrors(input.email, isEmail) + UsernameErrors(input.username) + PasswordErrors(input.password);
      (!UsernameOk(input) <==>
        UsernameRequired in errs || UsernameTooShort in errs || UsernameTooLong in errs) &&
      (UsernameRequired in errs <==> input.username == "") &&
      (UsernameTooShort in errs <==> 0 < |input.username| < 3) &&
      (UsernameTooLong in errs <==> |input.username| > 30) &&
      multiset(errs)[UsernameRequired] + multiset(errs)[UsernameTooShort]
        + multiset(errs)[UsernameTooLong] <= 1
  {
    var a, b, c := EmailErrors(input.email, isEmail), UsernameErrors(input.username),
      PasswordErrors(input.password);
    JoinedMembers(a, b, c);
    JoinInFieldOrder(a, b, c);
    OnceOfThree(a + b + c, UsernameRequired, UsernameTooShort, UsernameTooLong);
  }

  /** The password rules, read off the joined error list. */
  lemma PasswordFacts(input: RegistrationInput, isEmail: string -> bool)
    ensures var errs := EmailErrors(input.email, isEmail) + UsernameErrors(input.username) + PasswordErrors(input.password);
      (!PasswordOk(input) <==> PasswordRequired in errs || PasswordTooShort in errs) &&
      (PasswordRequired in errs <==> input.password == "") &&
      (PasswordTooShort in errs <==> 0 < |input.password| < 8) &&
      multiset(errs)[PasswordRequired] + multiset(errs)[PasswordTooShort] <= 1
  {
    var a, b, c := EmailErrors(input.email, isEmail), UsernameErrors(input.username),
      PasswordErrors(input.password);
    JoinedMembers(a, b, c);
    JoinInFieldOrder(a, b, c);
    OnceOfTwo(a + b + c, PasswordRequired, PasswordTooShort);
  }

  /** `Validate`: the validation errors of all fields, in field order; the
      empty list is a nil error. */
  function Validate(input: RegistrationInput, isEmail: string -> bool): (errs: seq<FieldError>)
    ensures |errs| <= 3
    ensures errs == [] <==> EmailOk(input, isEmail) && UsernameOk(input) && PasswordOk(input)
    ensures !EmailOk(input, isEmail) <==> EmailRequired in errs || EmailMalformed in errs
    ensures !UsernameOk(input) <==>
      UsernameRequired in errs || UsernameTooShort in errs || UsernameTooLong in errs
    ensures !PasswordOk(input) <==> PasswordRequired in errs || PasswordTooShort in errs
    ensures EmailRequired in errs <==> input.email == ""
    ensures EmailMalformed in errs <==> input.email != "" && !isEmail(input.email)
    ensures UsernameRequired in errs <==> input.username == ""
    ensures UsernameTooShort in errs <==> 0 < |input.username| < 3
    ensures UsernameTooLong in errs <==> |input.username| > 30
    ensures PasswordRequired in errs <==> input.password == ""
    ensures PasswordTooShort in errs <==> 0 < |input.password| < 8
    ensures multiset(errs)[EmailRequired] + multiset(errs)[EmailMalformed] <= 1
    ensures multiset(errs)[UsernameRequired] + multiset(errs)[UsernameTooShort]
          + multiset(errs)[UsernameTooLong] <= 1
    ensures multiset(errs)[PasswordRequired] + multiset(errs)[PasswordTooShort] <= 1
  {
    EmailFacts(input, isEmail);
    UsernameFacts(input, isEmail);
    PasswordFacts(input, isEmail);
    JoinedMembers(EmailErrors(input.email, isEmail), UsernameErrors(input.username),
      PasswordErrors(input.password));
    EmailErrors(input.email, isEmail) + UsernameErrors(input.username) + PasswordErrors(input.password)
  }

  /** The errors come in field order: e-mail, then username, then password. */
  lemma ValidateInFieldOrder(input: RegistrationInput, isEmail: string -> bool)
    ensures var errs := Validate(input, isEmail);
      forall i, j :: 0 <= i < j < |errs| ==> FieldOf(errs[i]) < FieldOf(errs[j])
  {
    JoinInFieldOrder(EmailErrors(input.email, isEmail), UsernameErrors(input.username),
      PasswordErrors(input.password));
  }

  /** A username of 31 characters is refused however good the rest is. */
  lemma LongUsernameRefused(isEmail: string -> bool)
    requires isEmail("a@b.c")
    ensures Validate(RegistrationInput("a@b.c", seq(31, i => 'u'), "password"), isEmail) == [UsernameTooLong]
  {
  }
}

=== FILE: schedules.dfy ===
/** The `payment_schedules` table and its repository
    (repositories/payment_schedule_repository.go). */
module Schedules {
  import opened Base

  /** One installment of a credit's payment schedule. */
  datatype Entry = Entry(id: int, creditId: int, dueDate: Time, amount: Money, isPaid: bool, createdAt: Time)

  /** The table: its rows by id, and the next value of the id sequence. */
  datatype Table = Table(rows: map<int, Entry>, nextId: int)

  /** The table afterwards and the error the Go function returns. */
  datatype Write = Write(after: Table, outcome: Outcome)

  /** The WHERE clauses the repository uses. */
  datatype Where =
    | Any                          // every row
    | OverdueBefore(cutoff: Time)  // due_date < cutoff AND is_paid = false
    | OfCredit(creditId: int)      // credit_id = creditId

  predicate Matches(e: Entry, q: Where) {
    match q
    case Any => true
    case OverdueBefore(cutoff) => e.dueDate < cutoff && !e.isPaid
    case OfCredit(k) => e.creditId == k
  }

  /** Ids come from a sequence starting at 1, and each row stores its own id. */
  ghost predicate Valid(t: Table) {
    && t.nextId >= 1
    && forall k :: k in t.rows ==> 1 <= k < t.nextId && t.rows[k].id == k
  }

  /** Ids strictly increase along the list, so no row appears twice. */
  ghost predicate AscendingIds(es: seq<Entry>) {
    forall i, j :: 0 <= i < j < |es| ==> es[i].id < es[j].id
  }

  /** Due dates never decrease along the list (`ORDER BY due_date`). */
  ghost predicate SortedByDue(es: seq<Entry>) {
    forall i, j :: 0 <= i < j < |es| ==> es[i].dueDate <= es[j].dueDate
  }

  /** `Create`: INSERT the caller's credit id, due date, amount and paid flag,
      stamped `now`, under the next id of the sequence. */
  function Create(t: Table, e: Entry, now: Time): (r: Table)
    requires Valid(t)
    ensures Valid(r) && r.nextId == t.nextId + 1
    ensures t.nextId !in t.rows && r.rows.Keys == t.rows.Keys + {t.nextId}
    ensures r.rows[t.nextId] == Entry(t.nextId, e.creditId, e.dueDate, e.amount, e.isPaid, now)
    ensures forall k :: k in t.rows ==> r.rows[k] == t.rows[k]
  {
    Table(t.rows[t.nextId := Entry(t.nextId, e.creditId, e.dueDate, e.amount, e.isPaid, now)], t.nextId + 1)
  }

  /** `GetByID`: the stored row, or `sql.ErrNoRows`. */
  function GetByID(t: Table, id: int): (r: Result<Entry>)
    ensures r.Ok? <==> id in t.rows
    ensures r.Ok? ==> r.value == t.rows[id]
    ensures r.Err? ==> r.error == NoRows
  {
    Lookup(t.rows, id)
  }

  /** Reading back the id a `Create` used returns the caller's fields,
      and every other lookup answers as before. */
  lemma CreateThenGetByID(t: Table, e: Entry, now: Time, id: int)
    requires Valid(t)
    ensures var r := GetByID(Create(t, e, now), id);
      && (id == t.nextId ==> r == Ok(Entry(id, e.creditId, e.dueDate, e.amount, e.isPaid, now)))
      && (id != t.nextId ==> r == GetByID(t, id))
  {
  }

  /** The rows matching q with ids from `from` on, in id order. */
  function SelectFrom(t: Table, q: Where, from: int): (r: seq<Entry>)
    requires Valid(t)
    ensures AscendingIds(r)
    ensures forall e :: e in r <==> e.id in t.rows && t.rows[e.id] == e && Matches(e, q) && e.id >= from
    decreases t.nextId - from
  {
    if from >= t.nextId then []
    else
      var rest := SelectFrom(t, q, from + 1);
      if from in t.rows && Matches(t.rows[from], q) then [t.rows[from]] + rest else rest
  }

  /** Every row of the table, in id order. */
  function AllRows(t: Table): (r: seq<Entry>)
    requires Valid(t)
    ensures AscendingIds(r)
    ensures forall e :: e in r <==> e.id in t.rows && t.rows[e.id] == e
  {
    SelectFrom(t, Any, 1)
  }

  /** `GetOverdueUnpaid`: the unpaid rows due strictly before the cutoff.
      The query has no ORDER BY; the model returns them in id order. */
  function GetOverdueUnpaid(t: Table, cutoff: Time): (r: seq<Entry>)
    requires Valid(t)
    ensures AscendingIds(r)
    ensures forall e :: e in r <==> e.id in t.rows && t.rows[e.id] == e && e.dueDate < cutoff && !e.isPaid
  {
    SelectFrom(t, OverdueBefore(cutoff), 1)
  }

  /** Neither an entry due exactly at the cutoff nor a paid one is overdue. */
  lemma OverdueExcludesBoundaryAndPaid(t: Table, cutoff: Time, e: Entry)
    requires Valid(t)
    requires e.dueDate == cutoff || e.isPaid
    ensures e !in GetOverdueUnpaid(t, cutoff)
  {
  }

  /** Insert e before the first entry not due earlier than it. */
  function InsertByDue(e: Entry, es: seq<Entry>): (r: seq<Entry>)
    requires SortedByDue(es)
    ensures SortedByDue(r)
    ensures multiset(r) == multiset(es) + multiset{e}
  {
    if es == [] then [e]
    else if e.dueDate <= es[0].dueDate then [e] + es
    else
      var rest := InsertByDue(e, es[1..]);
      assert es == [es[0]] + es[1..];
      LowerBound(es[0].dueDate, e, es[1..], rest);
      [es[0]] + rest
  }

  /** Whatever holds e and the entries of a list all due no earlier than
      `due` is itself due no earlier than `due`. */
  lemma LowerBound(due: Time, e: Entry, es: seq<Entry>, r: seq<Entry>)
    requires due <= e.dueDate
    requires forall i :: 0 <= i < |es| ==> due <= es[i].dueDate
    requires multiset(r) == multiset(es) + multiset{e}
    ensures forall i :: 0 <= i < |r| ==> due <= r[i].dueDate
  {
    forall i | 0 <= i < |r| ensures due <= r[i].dueDate {
      assert r[i] in multiset(r);
      if r[i] != e {
        assert r[i] in multiset(es);
        var k :| 0 <= k < |es| && es[k] == r[i];
      }
    }
  }

  /** Insertion sort on the due date. */
  function SortByDue(es: seq<Entry>): (r: seq<Entry>)
    ensures SortedByDue(r)
    ensures multiset(r) == multiset(es)
  {
    if es == [] then []
    else
      assert es == [es[0]] + es[1..];
      InsertByDue(es[0], SortByDue(es[1..]))
  }

  /** `GetByCreditID`: the credit's rows, `ORDER BY due_date`. */
  function GetByCreditID(t: Table, creditId: int): (r: seq<Entry>)
    requires Valid(t)
    ensures SortedByDue(r)
    ensures multiset(r) == multiset(SelectFrom(t, OfCredit(creditId), 1))
    ensures forall e :: e in r <==> e.id in t.rows && t.rows[e.id] == e && e.creditId == creditId
  {
    var r := SortByDue(SelectFrom(t, OfCredit(creditId), 1));
    assert forall e :: e in r <==> e in multiset(r);
    r
  }

  /** `Update`: `UPDATE payment_schedules SET is_paid = ... WHERE id = ...`.
      Only the paid flag is written; the row count is not checked, so an
      unknown id is a silent success. */
  function Update(t: Table, e: Entry): (w: Write)
    ensures w.outcome == Pass
    ensures w.after.nextId == t.nextId && w.after.rows.Keys == t.rows.Keys
    ensures e.id in t.rows ==> w.after.rows[e.id] == t.rows[e.id].(isPaid := e.isPaid)
    ensures forall k :: k in t.rows && k != e.id ==> w.after.rows[k] == t.rows[k]
    ensures e.id !in t.rows ==> w.after == t
  {
    if e.id in t.rows then Write(t.(rows := t.rows[e.id := t.rows[e.id].(isPaid := e.isPaid)]), Pass)
    else Write(t, Pass)
  }

  lemma UpdatePreservesValid(t: Table, e: Entry)
    requires Valid(t)
    ensures Valid(Update(t, e).after)
  {
  }

  /** Marking a stored entry paid takes it off the overdue list for every
      cutoff; marking it unpaid puts it back once the cutoff passes its due
      date. */
  lemma UpdateDecidesOverdue(t: Table, e: Entry, cutoff: Time)
    requires Valid(t) && e.id in t.rows
    ensures var after := Update(t, e).after;
      var stored := after.rows[e.id];
      stored in GetOverdueUnpaid(after, cutoff) <==> !e.isPaid && t.rows[e.id].dueDate < cutoff
  {
    UpdatePreservesValid(t, e);
  }
}
